=== FILE: README.md ===
# healthd request pipeline, modelled in Dafny

healthd is a fleet health sink. Agents connect over mutual TLS. Each
request names its agent in the `X-Agent-Name` header. A POST carries a
JSON array of status entries. The sink wraps it as
`StatusUpdate{Status, Time}` and stores it in etcd under the agent's name,
replacing the previous record. A GET returns the document stored under the
fixed key `monitors`.

This project models how one request is decided:

- which request is accepted and which is rejected;
- the status code the client sees (400, 403, 500 or 200, from section 15 of RFC 9110);
- whether the body is read;
- what the store holds afterwards.

Modules:

- `Wrappers` (`wrappers.dfy`): `Option`.
- `Http` (`http.dfy`): status codes, certificates, the request, the body
  reader and the response writer. The body reader is a class that holds
  the protocol, the declared content length, what the client sent, and a
  `consumed` flag, so "rejected before the body is read" can be observed.
  Reading it yields what net/http's server body yields (`ReceivedBody`).
  The TLS server negotiates HTTP/2 as well as HTTP/1.1, and both are modelled:
  - Over HTTP/1.1 the body is the first declared-length bytes of the
    transmission, and a shorter transmission is a read error.
  - Over HTTP/2 the transmission must have exactly the declared length;
    otherwise the read fails.
  The response writer is a class that records every status code written.
  As in Go, the first code written is the one the client gets.
- `Flags` (`flags.dfy`): `StringSlice`, the repeatable `-etcd` flag.
  `String` is `strings.Join` with a space. `Split` is the inverse it is
  proved against.
- `Etcd` (`etcd.dfy`): the store, a class `KeysApi` holding a
  `map<string, string>`, with `Set` and `Get`. The failure a call meets is
  injected as a parameter:
  - `SetFault`: none; the write is refused; or the write is applied but not
    acknowledged, which is how a timeout after commit looks to the client.
  - `GetFault`: none; the read fails; or the response has no node.
- `Service` (`healthd.go`, in `healthd.dfy`): the `Healthd` class with its two
  handlers, written step by step with early returns as in the source.
  Each handler is proved against a specification function:
  `PostStatus` / `GetMonitors`, which return an `Effect` (codes written,
  body written, body read, store after).
- `Router` (`router.dfy`): the handler closure of `main.go`.
  - `FindName` is the loop over the DNS subjectAltNames (section 4.2.1.6 of RFC 5280).
  - `Decide` is the pure, total decision.
  - `Handle` is the closure itself, proved against `Serve`.
  - The lemmas state the pipeline's properties over `Serve`.

Collaborators the model takes as parameters (record `Service.Env`):

- the JSON parser (`string -> Option<JsonValue>`);
- the JSON serialiser (`StatusUpdate -> Option<string>`), total but allowed to fail;
- the clock (`now`, Unix seconds as a 64-bit integer);
- the store faults.

The model follows the code in the cases below. In each of them the code
behaves differently from what the service is meant to do, as far as its
purpose can be told:

- `json.Unmarshal` into a `[]interface{}` also accepts the JSON literal `null`
  (a nil slice). The model therefore accepts `null` (`UnmarshalArray`),
  although the update is meant to be a JSON array.
- When the store `Set` fails, the code writes 500 and then, with no
  `return`, also writes 200 (healthd.go:114-120). The model records both
  codes, `[500, 200]`. The client sees 500 (`EffectiveStatus`).
- One would expect the status handler to reject an empty agent name. In
  the code, `POSTStatusHandler` does not check it, and only the router rejects it
  (`PostHandlerAcceptsEmptyName`, `EmptyKeyNeverWritten`).
- The handler has separate branches for "store read failed" and "record
  missing". The etcd v2 keys API reports a missing key as an error (`KeyNotFound`), so the
  code's error branch (healthd.go:50-55) handles it. The nil-node branch is
  reached only through the injected `EmptyResponse`. Both give 500.
- The monitors document is meant to be written only by an administrator,
  outside this service. Nothing stops an agent whose certificate asserts
  the name `monitors` from overwriting it. The router authorises that agent
  (main.go:106-128), and `Set` at healthd.go:112 writes under its name.
  Every later GET then serves that agent's envelope
  (`AgentNamedMonitorsOverwritesDocument`).

## Model

| member | source | states |
|---|---|---|
| Flags.StringSlice.String | main.go:23-25 | the entries joined by single spaces: empty for no entries, length = total entry length + one per gap, and splitting at spaces gives the entries back when none holds a space |
| Flags.StringSlice.Set | main.go:28-31 | appends the value after all earlier entries, in order, and returns nil |
| Flags.JoinAppend | main.go:23-31 | after Set, String is the old text, a space and the new value (or just the value when it is the first) |
| Flags.JoinLength | main.go:23-25 | the joined text has every entry's characters plus one separator between each neighbouring pair |
| Flags.SplitJoin | main.go:23-25 | Join is inverted by Split when no entry holds the separator |
| Http.FirstCodeWins | healthd.go:114-120 | once a status code is written, codes written after it do not change the status the client sees |
| Http.ReceivedBody | healthd.go:73-86 | a body that can be read has exactly the declared length when that length is known, and is a prefix of what was sent; over HTTP/1.1 a positive length cuts the transmission to that many bytes; over HTTP/2 it reads exactly when the transmission has the declared length; under either protocol a shorter transmission is a read error |
| Http.BodyReader.Payload | healthd.go:80 | a body that can be read has exactly the declared length when that length is known |
| Http.BodyReader.ReadAll | healthd.go:80 | reading yields the body bounded by the declared length, or the read error, and marks the body consumed |
| Http.ResponseWriter.WriteHeader | healthd.go:120 | records one more status code and leaves the body alone; the first one written sets the status, and a later one leaves it unchanged |
| Http.ResponseWriter.Write | healthd.go:65-66 | appends to the body; writing before any header sets status 200; otherwise the status is unchanged |
| Http.ResponseWriter.Error | healthd.go:53 | records the error status code, which becomes the status unless one was already written |
| Etcd.AfterSet | healthd.go:110-113 | unless the store refuses it, Set leaves the key holding exactly the new value (last write wins, no merge); no other key changes |
| Etcd.SetError | healthd.go:112-114 | Set reports an error exactly when a fault is injected, including an applied but unacknowledged write |
| Etcd.GetReply | healthd.go:46-49 | Get returns the stored value exactly when the key is present and no fault is injected; a missing key is a KeyNotFound error; a node-less response only comes from the injected fault |
| Etcd.KeysApi.Set | healthd.go:110-113 | the store afterwards is AfterSet of the store before; the error is SetError of the fault |
| Etcd.KeysApi.Get | healthd.go:46-49 | answers GetReply on the current contents without changing them |
| Service.UnmarshalArray | healthd.go:88-95 | decoding succeeds exactly when the body parses to a JSON array or null, and then yields the parsed value |
| Service.Envelope | healthd.go:97-100 | the envelope exists exactly when the body was read and decodes; it holds the decoded value and the acceptance time |
| Service.PostStatus | healthd.go:70-124 | content length outside 1..1,000,000 gives 400 with the body unread and the store untouched; 400 never changes the store; the first code is 200 exactly when the length is valid, the body decodes and serialises, and Set has no fault, and then the body read had 1..1,000,000 bytes and the agent's key holds the serialised envelope; no other key ever changes |
| Service.GetMonitors | healthd.go:45-67 | never changes the store or reads the body; 200 with the stored monitors value verbatim exactly when the key is present and the read has no fault, 500 otherwise (the error text is not modelled, see Http.ResponseWriter.Error) |
| Service.Healthd.GETMonitorsHandler | healthd.go:45-67 | leaves the store unchanged and writes GetMonitors' codes and body |
| Service.Healthd.POSTStatusHandler | healthd.go:70-124 | writes PostStatus' codes, leaves the store as PostStatus says, and consumes the body exactly when PostStatus reads it |
| Router.FindName | main.go:106-116 | true exactly when the name is the certificate's common name or one of its DNS names |
| Router.Decide | main.go:90-133 | a handler is reached exactly when the request is authorised and the method is GET or POST (GET goes to monitors, POST to status); 403 exactly when a named, certificate-bearing request is not authorised; every other rejection is 400 |
| Router.Handle | main.go:90-134 | writes Serve's codes and body, leaves the store as Serve says, and consumes the body exactly when Serve reads it |
| Router.MissingHeaderRejectedFirst | main.go:91-97 | an empty agent name gives 400 whatever the method, certificate or body; nothing is read or stored |
| Router.MissingCertificateRejected | main.go:99-104 | no TLS state or no peer certificate gives 400, before any name comparison |
| Router.MismatchForbidden | main.go:106-123 | a name that is neither the leaf's common name nor one of its DNS names gives 403; nothing is read or stored |
| Router.OnlyLeafCertificateCounts | main.go:107-110 | authorisation consults only certificate 0, by exact equality; later certificates make no difference |
| Router.OtherMethodRejected | main.go:129-133 | an authorised request with a method other than GET or POST gives 400 and neither handler runs |
| Router.HandlersRunOnlyWhenAuthorized | main.go:118-128 | a request that reads the body, answers 200 or changes the store was authorised |
| Router.RejectionLeavesStoreUnchanged | main.go:90-133 | every 400 or 403 leaves the store as it was |
| Router.StoreChangesOnlyThroughSet | healthd.go:110-113 | the store changes only by an authorised POST whose Set was applied, and then to the serialised envelope under the agent's name |
| Router.OnlyAgentKeyChanges | healthd.go:112 | no key other than the agent's name changes |
| Router.EmptyKeyNeverWritten | main.go:92 | the empty key is never written, because the header check comes first |
| Router.PostHandlerAcceptsEmptyName | healthd.go:71-73 | POSTStatusHandler on its own stores under the empty name |
| Router.GetNeverMutates | healthd.go:45-67 | a GET never changes the store and never reads the body |
| Router.AuthorizedGetReturnsMonitors | healthd.go:57-66 | an authorised GET answers 200 with the monitors value verbatim when it is present and readable, else 500 (the error text is not modelled, see Http.ResponseWriter.Error) |
| Router.MissingMonitorsIsServerError | healthd.go:50-55 | an authorised GET with no monitors key in the store answers 500 |
| Router.BadContentLengthRejectedBeforeRead | healthd.go:73-78 | an authorised POST with content length ≤ 0 or > 1,000,000 gives 400; the body is not read and the store is not touched |
| Router.UnusableBodyRejected | healthd.go:80-95 | an unreadable body, or one that does not decode as an array, gives 400 and leaves the store unchanged |
| Router.SerializationFailureNotStored | healthd.go:102-108 | a serialisation failure gives 500 with no store write |
| Router.SetFailureFallsThrough | healthd.go:114-120 | a failing Set writes 500 and then 200; the client sees 500 |
| Router.AcceptedUpdateStored | healthd.go:97-112 | an accepted POST was authorised, and the agent's key now holds the serialisation of {decoded body, acceptance time} |
| Router.LastWriteWins | healthd.go:112 | after two accepted updates from one agent, the store holds the second envelope, not a merge |
| Router.AcceptedUpdateReadsBack | healthd.go:97-112 | when decoding inverts the serialiser, the agent's record reads back as {decoded body, acceptance time} |
| Router.ClaimForOtherAgentForbidden | main.go:106-123 | a claim for node-7 over a certificate for node-9 gives 403 |
| Router.CaseDifferenceForbidden | main.go:107-111 | a claim that differs from the leaf's common name only in ASCII letter case, and is not one of its DNS names, gives 403 with nothing read or stored |
| Router.AcceptedPayloadBounded | healthd.go:73-86 | an accepted update's body had exactly the declared length, between 1 and 1,000,000 bytes |
| Router.BodyCutAtDeclaredLength | healthd.go:80 | over HTTP/1.1, for any positive declared length, the body read is the first declared-length bytes of the transmission; later bytes are not part of it |
| Router.OverlongBodyRejectedOverHttp2 | healthd.go:80-86 | over HTTP/2, an authorised POST with a valid declared length that sends more or fewer bytes than declared gets a read error and 400, and nothing is stored |
| Router.AgentNamedMonitorsOverwritesDocument | healthd.go:112 | an accepted update from an agent named "monitors" replaces the monitors document, and a later GET serves that agent's envelope |

## Left out

- `main()`: flag parsing, version logging, reading the CA file, building
  the TLS configuration and serving HTTPS (main.go:33-89, 136-150). These
  are start-up I/O. `StringSlice` itself is modelled.
- `NewHealthd` and the etcd client (healthd.go:22-36): network
  connection set-up. The `Healthd` constructor only records an
  already-connected store handle.
- The 5-second `context.WithTimeout` deadlines (healthd.go:47, 111). A
  timeout is one of the injected store faults. Real time and cancellation
  are not modelled.
- The internals of `encoding/json`. The parser and the serialiser are
  parameters. JSON numbers keep their literal text, so floating point is
  not modelled.
- `time.Now()`: the timestamp is the parameter `now`.
- Logging through logrus, including the "Updated state" line written
  after a failed Set.
- Concurrency between simultaneous requests to the same key: the store's
  last-write-wins handles it, not this code.
- Etcd.KeysApi: keys are compared as plain strings. The etcd v2 client
  cleans each key as a URL path, so "monitors", "/monitors" and
  "x/../monitors" address one key, and a name containing "/" creates a
  directory. Router.OnlyAgentKeyChanges and
  Router.AgentNamedMonitorsOverwritesDocument therefore hold for the
  model's keys, not for etcd's cleaned paths. In etcd, any agent name that
  cleans to `monitors` also overwrites the monitors document.
- Http.ReceivedBody: an HTTP/2 request declaring length 0 that still sends
  data is a stream error in net/http; the model gives it an empty body.
  The handler rejects length 0 before reading, so this makes no
  difference to any response.
- Go strings and byte slices are both modelled as `string`, with one
  character standing for one byte. The `string(body)` conversions are
  identities. Http.ReceivedBody, Service.PostStatus and
  Router.AcceptedPayloadBounded compare the number of characters with
  the content length, which counts bytes. They are exact only on that
  reading: read as Unicode text, a multi-byte body would give the wrong
  length.
- Http.ResponseWriter.Error: records only the status code, not the
  message text `http.Error` writes, nor the headers it sets.

=== FILE: etcd.dfy ===
/**
 * The key-value store the sink persists to, seen through the get/set
 * façade of the etcd keys API: a flat map from string keys to string
 * values. A store call can fail (a timeout is one such failure); which
 * failure, if any, a call meets is injected as a parameter.
 */
module Etcd {
  import opened Wrappers

  datatype StoreError = KeyNotFound | Timeout | Unavailable

  /**
   * What happens to one Set: it is applied and acknowledged, refused, or
   * applied without the acknowledgement reaching the caller in time.
   */
  datatype SetFault = NoSetFault | WriteRefused(err: StoreError) | WriteUnacknowledged(err: StoreError)

  /** What happens to one Get: it is answered, fails, or returns a response without a node. */
  datatype GetFault = NoGetFault | ReadFailed(err: StoreError) | EmptyResponse

  datatype GetResponse = GetFailed(err: StoreError) | NoNode | Node(value: string)

  /** The store contents after a Set of `key` to `value` under `fault`. */
  function AfterSet(data: map<string, string>, key: string, value: string, fault: SetFault): (d: map<string, string>)
    ensures !fault.WriteRefused? ==> key in d && d[key] == value
    ensures fault.WriteRefused? ==> d == data
    ensures forall k :: k != key ==> (k in d <==> k in data) && (k in d ==> d[k] == data[k])
  {
    if fault.WriteRefused? then data else data[key := value]
  }

  /** The error a Set reports under `fault`. */
  function SetError(fault: SetFault): (err: Option<StoreError>)
    ensures err == None <==> fault == NoSetFault
  {
    match fault
    case NoSetFault => None
    case WriteRefused(e) => Some(e)
    case WriteUnacknowledged(e) => Some(e)
  }

  /** The answer to a Get of `key` under `fault`; an absent key is reported as an error. */
  function GetReply(data: map<string, string>, key: string, fault: GetFault): (r: GetResponse)
    ensures r.Node? <==> fault == NoGetFault && key in data
    ensures r.Node? ==> r.value == data[key]
    ensures r.NoNode? <==> fault == EmptyResponse
    ensures fault == NoGetFault && key !in data ==> r == GetFailed(KeyNotFound)
  {
    match fault
    case ReadFailed(e) => GetFailed(e)
    case EmptyResponse => NoNode
    case NoGetFault => if key in data then Node(data[key]) else GetFailed(KeyNotFound)
  }

  /** A handle on the store. */
  class KeysApi {
    var data: map<string, string>

    constructor (initial: map<string, string>)
      ensures data == initial
    {
      data := initial;
    }

    /** Last write wins: the value replaces whatever `key` held; no other key changes. */
    method Set(key: string, value: string, fault: SetFault) returns (err: Option<StoreError>)
      modifies this
      ensures data == AfterSet(old(data), key, value, fault)
      ensures err == SetError(fault)
    {
      if !fault.WriteRefused? {
        data := data[key := value];
      }
      err := SetError(fault);
    }

    /** Reads `key`; the store is not changed. */
    method Get(key: string, fault: GetFault) returns (resp: GetResponse)
      ensures resp == GetReply(data, key, fault)
    {
      match fault {
        case ReadFailed(e) =>
          resp := GetFailed(e);
        case EmptyResponse =>
          resp := NoNode;
        case NoGetFault =>
          if key in data {
            resp := Node(data[key]);
          } else {
            resp := GetFailed(KeyNotFound);
          }
      }
    }
  }
}

=== FILE: flags.dfy ===
/**
 * StringSlice, the repeatable command-line flag that collects the etcd
 * endpoints: Set appends a value, String joins the values with a space.
 */
module Flags {
  import opened Wrappers

  /** strings.Join: the parts in order, with `sep` between neighbours. */
  function Join(parts: seq<string>, sep: string): string
  {
    if |parts| == 0 then ""
    else if |parts| == 1 then parts[0]
    else parts[0] + sep + Join(parts[1..], sep)
  }

  /** strings.Split on a one-character separator: the inverse of Join. */
  function Split(s: string, sep: char): (parts: seq<string>)
    ensures |parts| >= 1
  {
    if |s| == 0 then [""]
    else
      var rest := Split(s[1..], sep);
      if s[0] == sep then [""] + rest
      else [[s[0]] + rest[0]] + rest[1..]
  }

  function TotalLength(parts: seq<string>): nat
  {
    if parts == [] then 0 else |parts[0]| + TotalLength(parts[1..])
  }

  /** Appending a part extends the joined text by the separator and that part. */
  lemma {:induction false} JoinAppend(parts: seq<string>, x: string, sep: string)
    ensures Join(parts + [x], sep) == if parts == [] then x else Join(parts, sep) + sep + x
  {
    if |parts| > 1 {
      assert (parts + [x])[1..] == parts[1..] + [x];
      JoinAppend(parts[1..], x, sep);
    }
  }

  /** The joined text holds every part and one separator between each pair. */
  lemma {:induction false} JoinLength(parts: seq<string>, sep: string)
    ensures |Join(parts, sep)| == TotalLength(parts) + (if parts == [] then 0 else (|parts| - 1) * |sep|)
  {
    if |parts| == 1 {
      assert parts[1..] == [];
    } else if |parts| > 1 {
      JoinLength(parts[1..], sep);
    }
  }

  /** A text without the separator splits into itself. */
  lemma {:induction false} SplitWithoutSeparator(s: string, sep: char)
    requires sep !in s
    ensures Split(s, sep) == [s]
  {
    if |s| > 0 {
      SplitWithoutSeparator(s[1..], sep);
      assert [s[0]] + s[1..] == s;
    }
  }

  /** Splitting `p + sep + rest` yields `p` followed by the parts of `rest`. */
  lemma {:induction false} SplitPrefix(p: string, sep: char, rest: string)
    requires sep !in p
    ensures Split(p + [sep] + rest, sep) == [p] + Split(rest, sep)
  {
    var s := p + [sep] + rest;
    if |p| == 0 {
      assert s == [sep] + rest;
      assert s[1..] == rest;
    } else {
      assert s[1..] == p[1..] + [sep] + rest;
      SplitPrefix(p[1..], sep, rest);
      assert [p[0]] + p[1..] == p;
    }
  }

  /**
   * Join and Split are inverse: a non-empty list of parts none of which
   * holds the separator is recovered from its joined text.
   */
  lemma {:induction false} SplitJoin(parts: seq<string>, sep: char)
    requires |parts| >= 1
    requires forall i :: 0 <= i < |parts| ==> sep !in parts[i]
    ensures Split(Join(parts, [sep]), sep) == parts
  {
    if |parts| == 1 {
      SplitWithoutSeparator(parts[0], sep);
    } else {
      SplitJoin(parts[1..], sep);
      SplitPrefix(parts[0], sep, Join(parts[1..], [sep]));
      assert [parts[0]] + parts[1..] == parts;
    }
  }

  lemma SplitJoinAtSpaces(parts: seq<string>)
    ensures parts != [] && (forall i :: 0 <= i < |parts| ==> ' ' !in parts[i]) ==>
              Split(Join(parts, " "), ' ') == parts
  {
    if parts != [] && (forall i :: 0 <= i < |parts| ==> ' ' !in parts[i]) {
      SplitJoin(parts, ' ');
    }
  }

  /** The flag value: the collected entries, in the order they were given. */
  class StringSlice {
    var entries: seq<string>

    constructor ()
      ensures entries == []
    {
      entries := [];
    }

    /**
     * The entries joined by single spaces; when no entry holds a space,
     * splitting the text at spaces gives the entries back.
     */
    function String(): (s: string)
      reads this
      ensures entries == [] ==> s == ""
      ensures |s| == TotalLength(entries) + (if entries == [] then 0 else |entries| - 1)
      ensures entries != [] && (forall i :: 0 <= i < |entries| ==> ' ' !in entries[i]) ==>
                Split(s, ' ') == entries
    {
      JoinLength(entries, " ");
      SplitJoinAtSpaces(entries);
      Join(entries, " ")
    }

    /** Appends one entry after all earlier ones; never fails. */
    method Set(value: string) returns (err: Option<string>)
      modifies this
      ensures entries == old(entries) + [value]
      ensures err == None
    {
      entries := entries + [value];
      err := None;
    }
  }
}

=== FILE: healthd.dfy ===
/**
 * The service behind the two endpoints: GETMonitorsHandler returns the
 * monitors document from the store, POSTStatusHandler persists an agent's
 * status report, wrapped with the time it was accepted, under the agent's
 * name.
 */
module Service {
  import opened Wrappers
  import opened Http
  import opened Etcd

  newtype int64 = x: int | -0x8000_0000_0000_0000 <= x < 0x8000_0000_0000_0000

  /** A decoded JSON value; numbers keep their literal text. */
  datatype JsonValue =
    | JNull
    | JBool(b: bool)
    | JNumber(literal: string)
    | JString(s: string)
    | JArray(items: seq<JsonValue>)
    | JObject(members: map<string, JsonValue>)

  /**
   * The persisted envelope. `status` is what the body decoded to as a Go
   * []interface{}: a JSON array, or null (a nil slice); `time` is in Unix
   * seconds.
   */
  datatype StatusUpdate = StatusUpdate(status: JsonValue, time: int64)

  /** The largest accepted content length, in bytes. */
  const MaxContentLength := 1000000

  /** The store key holding the monitors document. */
  const MonitorsKey := "monitors"

  /**
   * What a request is served against besides the store itself: the JSON
   * parser (None for malformed text), the JSON serialiser (None when it
   * fails), the clock, and the faults the store's Set and Get meet.
   */
  datatype Env = Env(
    parse: string -> Option<JsonValue>,
    marshal: StatusUpdate -> Option<string>,
    now: int64,
    setFault: SetFault,
    getFault: GetFault)

  /**
   * json.Unmarshal into a []interface{}: a JSON array decodes, and so does
   * null; malformed text and any other JSON value are errors.
   */
  function UnmarshalArray(body: string, parse: string -> Option<JsonValue>): (r: Option<JsonValue>)
    ensures r.Some? <==> parse(body).Some? && (parse(body).value.JArray? || parse(body).value.JNull?)
    ensures r.Some? ==> r == parse(body)
  {
    match parse(body)
    case Some(JArray(items)) => Some(JArray(items))
    case Some(JNull) => Some(JNull)
    case _ => None
  }

  /**
   * What handling one request does: the status codes written, in order,
   * the response body, whether the request body was read, and the store
   * contents afterwards.
   */
  datatype Effect = Effect(codes: seq<int>, body: string, bodyRead: bool, kv: map<string, string>)

  /**
   * The envelope POSTStatusHandler builds from a body that could be read,
   * if the body decodes: the decoded array stamped with the current time.
   */
  function Envelope(payload: Option<string>, env: Env): (u: Option<StatusUpdate>)
    ensures u.Some? <==> payload.Some? && UnmarshalArray(payload.value, env.parse).Some?
    ensures u.Some? ==> u.value.time == env.now && (u.value.status.JArray? || u.value.status.JNull?)
    ensures u.Some? ==> Some(u.value.status) == env.parse(payload.value)
  {
    if payload.None? then None
    else match UnmarshalArray(payload.value, env.parse)
      case None => None
      case Some(data) => Some(StatusUpdate(data, env.now))
  }

  /** The text POSTStatusHandler hands to the store for a body, if it gets that far. */
  function Serialized(payload: Option<string>, env: Env): Option<string>
  {
    match Envelope(payload, env)
    case None => None
    case Some(u) => env.marshal(u)
  }

  /**
   * The effect of POSTStatusHandler for an agent name and a request body
   * (which carries the declared content length).
   */
  function PostStatus(agentName: string, body: BodyReader, env: Env, kv: map<string, string>): (e: Effect)
    ensures e.codes != [] && e.codes[0] in {StatusOK, StatusBadRequest, StatusInternalServerError}
    ensures e.body == ""
    ensures !(0 < body.contentLength <= MaxContentLength) ==>
              e.codes == [StatusBadRequest] && !e.bodyRead && e.kv == kv
    ensures e.codes[0] == StatusBadRequest ==> e.kv == kv
    ensures e.codes[0] == StatusOK <==>
              && 0 < body.contentLength <= MaxContentLength
              && Serialized(body.Payload(), env).Some?
              && env.setFault == NoSetFault
    ensures e.codes[0] == StatusOK ==>
              && body.Payload().Some? && 0 < |body.Payload().value| <= MaxContentLength
              && e.kv == kv[agentName := Serialized(body.Payload(), env).value]
    ensures forall k :: k != agentName ==> (k in e.kv <==> k in kv) && (k in e.kv ==> e.kv[k] == kv[k])
  {
    var payload := body.Payload();
    if body.contentLength <= 0 || body.contentLength > MaxContentLength then
      Effect([StatusBadRequest], "", false, kv)
    else if payload.None? then
      Effect([StatusBadRequest], "", true, kv)
    else match UnmarshalArray(payload.value, env.parse)
      case None => Effect([StatusBadRequest], "", true, kv)
      case Some(data) =>
        var update := StatusUpdate(data, env.now);
        match env.marshal(update)
        case None => Effect([StatusInternalServerError], "", true, kv)
        case Some(serialized) =>
          var stored := AfterSet(kv, agentName, serialized, env.setFault);
          if SetError(env.setFault).None? then Effect([StatusOK], "", true, stored)
          else Effect([StatusInternalServerError, StatusOK], "", true, stored)
  }

  /** The effect of GETMonitorsHandler. */
  function GetMonitors(kv: map<string, string>, fault: GetFault): (e: Effect)
    ensures e.kv == kv && !e.bodyRead
    ensures e.codes == [StatusOK] || e.codes == [StatusInternalServerError]
    ensures e.codes == [StatusOK] <==> fault == NoGetFault && MonitorsKey in kv
    ensures e.codes == [StatusOK] ==> e.body == kv[MonitorsKey]
    ensures e.codes != [StatusOK] ==> e.body == ""
  {
    match GetReply(kv, MonitorsKey, fault)
    case GetFailed(_) => Effect([StatusInternalServerError], "", false, kv)
    case NoNode => Effect([StatusInternalServerError], "", false, kv)
    case Node(value) => Effect([StatusOK], value, false, kv)
  }

  class Healthd {
    const etcds: seq<string>
    const client: KeysApi

    /** A service over an already connected store. */
    constructor (etcds: seq<string>, client: KeysApi)
      ensures this.etcds == etcds && this.client == client
    {
      this.etcds := etcds;
      this.client := client;
    }

    /** Answers with the monitors document, verbatim; never writes the store. */
    method GETMonitorsHandler(w: ResponseWriter, r: Request, env: Env)
      modifies w
      ensures unchanged(client)
      ensures w.codes == old(w.codes) + GetMonitors(client.data, env.getFault).codes
      ensures w.body == old(w.body) + GetMonitors(client.data, env.getFault).body
    {
      var resp := client.Get(MonitorsKey, env.getFault);
      if resp.GetFailed? {
        w.Error(StatusInternalServerError);
        return;
      }
      if resp.NoNode? {
        w.Error(StatusInternalServerError);
        return;
      }
      var val := resp.value;
      w.WriteHeader(StatusOK);
      w.Write(val);
    }

    /**
     * Validates the body and persists it, wrapped with the current time,
     * under the agent's name. A failing Set writes 500 and falls through
     * to the 200 meant for success; the client sees the 500.
     */
    method POSTStatusHandler(w: ResponseWriter, r: Request, env: Env)
      modifies w, client, r.body
      ensures var e := PostStatus(r.agentName, r.body, env, old(client.data));
              && w.codes == old(w.codes) + e.codes
              && w.body == old(w.body)
              && client.data == e.kv
              && r.body.consumed == (old(r.body.consumed) || e.bodyRead)
    {
      var agentName := r.agentName;

      if r.ContentLength() <= 0 || r.ContentLength() > MaxContentLength {
        w.Error(StatusBadRequest);
        return;
      }

      var body := r.body.ReadAll();
      if body.None? {
        w.Error(StatusBadRequest);
        return;
      }

      var data := UnmarshalArray(body.value, env.parse);
      if data.None? {
        w.Error(StatusBadRequest);
        return;
      }

      var update := StatusUpdate(data.value, env.now);

      var serialized := env.marshal(update);
      if serialized.None? {
        w.Error(StatusInternalServerError);
        return;
      }

      var err := client.Set(agentName, serialized.value, env.setFault);
      if err.Some? {
        w.Error(StatusInternalServerError);
      }

      w.WriteHeader(StatusOK);
    }
  }
}

=== FILE: http.dfy ===
/**
 * The parts of net/http, crypto/tls and crypto/x509 that the health sink
 * consults: status codes, the request as the handlers see it, the request
 * body as a one-shot reader, and the response writer.
 */
module Http {
  import opened Wrappers

  /** Status codes used by the handlers (section 15 of RFC 9110). */
  const StatusOK := 200
  const StatusBadRequest := 400
  const StatusForbidden := 403
  const StatusInternalServerError := 500

  const MethodGet := "GET"
  const MethodPost := "POST"

  /** The fields of an X.509 certificate the handler compares names with. */
  datatype Certificate = Certificate(commonName: string, dnsNames: seq<string>)

  /** The TLS state of a connection: the peer certificate chain, leaf first. */
  datatype ConnectionState = ConnectionState(peerCertificates: seq<Certificate>)

  /**
   * The protocol a request arrived over; the TLS server negotiates HTTP/2
   * with clients that offer it and HTTP/1.1 otherwise.
   */
  datatype Protocol = Http1 | Http2

  /**
   * What reading a request body yields in net/http, given the protocol,
   * the declared content length and what the client sent (None: the
   * connection broke).
   *  - A zero length is an empty body.
   *  - An unknown length (-1) is read to the end.
   *  - Over HTTP/1.1 a positive length bounds the body to exactly that many
   *    bytes: later bytes are not part of it, and a shorter transmission is
   *    an unexpected-EOF error.
   *  - Over HTTP/2 the DATA frames must carry exactly the declared length;
   *    more or fewer bytes are a read error.
   */
  function ReceivedBody(protocol: Protocol, contentLength: int, sent: Option<string>): (body: Option<string>)
    ensures body.Some? && contentLength >= 0 ==> |body.value| == contentLength
    ensures protocol == Http1 && contentLength > 0 && sent.Some? && |sent.value| >= contentLength ==>
              body == Some(sent.value[..contentLength])
    ensures protocol == Http2 && contentLength > 0 ==>
              (body.Some? <==> sent.Some? && |sent.value| == contentLength)
    ensures contentLength > 0 && (sent.None? || |sent.value| < contentLength) ==> body.None?
    ensures body.Some? && contentLength != 0 ==> sent.Some? && body.value <= sent.value
  {
    if contentLength == 0 then Some("")
    else if sent.None? then None
    else if contentLength < 0 then sent
    else if |sent.value| < contentLength then None
    else if protocol == Http2 && |sent.value| > contentLength then None
    else Some(sent.value[..contentLength])
  }

  /**
   * A request body: the protocol, the declared content length (-1 when
   * unknown) and what the client sent; `consumed` records whether a
   * handler has read it.
   */
  class BodyReader {
    const protocol: Protocol
    const contentLength: int
    const sent: Option<string>
    var consumed: bool

    constructor (protocol: Protocol, contentLength: int, sent: Option<string>)
      ensures this.protocol == protocol && this.contentLength == contentLength && this.sent == sent
      ensures !consumed
    {
      this.protocol := protocol;
      this.contentLength := contentLength;
      this.sent := sent;
      consumed := false;
    }

    /** What reading the whole body yields (None: the read fails). */
    function Payload(): (body: Option<string>)
      ensures body.Some? && contentLength >= 0 ==> |body.value| == contentLength
    {
      ReceivedBody(protocol, contentLength, sent)
    }

    /** ioutil.ReadAll on the body. */
    method ReadAll() returns (data: Option<string>)
      modifies this
      ensures consumed && data == Payload()
    {
      consumed := true;
      data := Payload();
    }
  }

  /**
   * A request: its method, the value of its X-Agent-Name header ("" when
   * the header is absent), its TLS state (None on a plain connection) and
   * its body, which carries the declared content length.
   */
  datatype Request = Request(
    requestMethod: string,
    agentName: string,
    tls: Option<ConnectionState>,
    body: BodyReader)
  {
    function ContentLength(): int
    {
      body.contentLength
    }
  }

  /**
   * The status a client receives after the handler called WriteHeader with
   * `codes`, in order: the first call wins, later calls are superfluous and
   * ignored, and a response nobody wrote a header for is 200.
   */
  function EffectiveStatus(codes: seq<int>): int
  {
    if codes == [] then StatusOK else codes[0]
  }

  /** Once a status code is written, codes written after it do not change what the client sees. */
  lemma FirstCodeWins(codes: seq<int>, later: seq<int>)
    requires codes != []
    ensures EffectiveStatus(codes + later) == EffectiveStatus(codes) == codes[0]
  {
  }

  /** A response writer that records every status code written and the body. */
  class ResponseWriter {
    var codes: seq<int>
    var body: string

    constructor ()
      ensures codes == [] && body == ""
    {
      codes := [];
      body := "";
    }

    function Status(): int
      reads this
    {
      EffectiveStatus(codes)
    }

    /** Only the first header counts: a later one leaves the status alone. */
    method WriteHeader(code: int)
      modifies this
      ensures codes == old(codes) + [code] && body == old(body)
      ensures old(codes) == [] ==> Status() == code
      ensures old(codes) != [] ==> Status() == old(Status())
    {
      codes := codes + [code];
    }

    /** Writing before any header implies a 200 header. */
    method Write(data: string)
      modifies this
      ensures codes == (if old(codes) == [] then [StatusOK] else old(codes))
      ensures body == old(body) + data
      ensures old(codes) == [] ==> Status() == StatusOK
      ensures old(codes) != [] ==> Status() == old(Status())
    {
      if codes == [] {
        codes := [StatusOK];
      }
      body := body + data;
    }

    /** http.Error: writes the status code; the message text is not modelled. */
    method Error(code: int)
      modifies this
      ensures codes == old(codes) + [code] && body == old(body)
      ensures old(codes) == [] ==> Status() == code
      ensures old(codes) != [] ==> Status() == old(Status())
    {
      WriteHeader(code);
    }
  }
}

=== FILE: router.dfy ===
/**
 * The request handler every path is routed to: it binds the claimed
 * agent name (the X-Agent-Name header) to the connection's client
 * certificate, then dispatches GET to the monitors reader and POST to the
 * status writer.
 */
module Router {
  import opened Wrappers
  import opened Http
  import opened Etcd
  import opened Service

  /** The names a certificate asserts: its subject common name and its DNS subjectAltNames. */
  function CertificateNames(cert: Certificate): set<string>
  {
    {cert.commonName} + set n | n in cert.dnsNames
  }

  /**
   * A request may act as `agentName` when the name is not empty and the
   * leaf peer certificate asserts exactly that name.
   */
  predicate Authorized(agentName: string, tls: Option<ConnectionState>)
  {
    && agentName != ""
    && tls.Some?
    && |tls.value.peerCertificates| > 0
    && agentName in CertificateNames(tls.value.peerCertificates[0])
  }

  /** Whether `cert` names `agentName`: the common name first, then each DNS name in turn. */
  method FindName(cert: Certificate, agentName: string) returns (foundName: bool)
    ensures foundName <==> agentName in CertificateNames(cert)
  {
    foundName := false;
    if cert.commonName == agentName {
      foundName := true;
    } else {
      var i := 0;
      while i < |cert.dnsNames|
        invariant 0 <= i <= |cert.dnsNames|
        invariant !foundName
        invariant forall j :: 0 <= j < i ==> cert.dnsNames[j] != agentName
      {
        if cert.dnsNames[i] == agentName {
          foundName := true;
          break;
        }
        i := i + 1;
      }
    }
  }

  /** Where the handler sends a request. */
  datatype Route = Rejected(code: int) | ToMonitors | ToStatus

  /**
   * The handler's decision, in its order of checks: missing header, missing
   * TLS state or certificate, name mismatch, then the method.
   */
  function Decide(agentName: string, tls: Option<ConnectionState>, requestMethod: string): (route: Route)
    ensures !route.Rejected? <==> Authorized(agentName, tls) && requestMethod in {MethodGet, MethodPost}
    ensures route == ToMonitors <==> Authorized(agentName, tls) && requestMethod == MethodGet
    ensures route == ToStatus <==> Authorized(agentName, tls) && requestMethod == MethodPost
    ensures route == Rejected(StatusForbidden) <==>
              agentName != "" && tls.Some? && |tls.value.peerCertificates| > 0 && !Authorized(agentName, tls)
    ensures route.Rejected? ==> route.code in {StatusBadRequest, StatusForbidden}
  {
    if agentName == "" then Rejected(StatusBadRequest)
    else if tls.None? || |tls.value.peerCertificates| == 0 then Rejected(StatusBadRequest)
    else
      var cert := tls.value.peerCertificates[0];
      if agentName !in CertificateNames(cert) then Rejected(StatusForbidden)
      else if requestMethod == MethodGet then ToMonitors
      else if requestMethod == MethodPost then ToStatus
      else Rejected(StatusBadRequest)
  }

  /** The effect of the whole handler on a request, given the store contents `kv`. */
  function Serve(r: Request, env: Env, kv: map<string, string>): Effect
  {
    match Decide(r.agentName, r.tls, r.requestMethod)
    case Rejected(code) => Effect([code], "", false, kv)
    case ToMonitors => GetMonitors(kv, env.getFault)
    case ToStatus => PostStatus(r.agentName, r.body, env, kv)
  }

  /** The handler closure installed for every path. */
  method Handle(h: Healthd, w: ResponseWriter, r: Request, env: Env)
    modifies w, h.client, r.body
    ensures var e := Serve(r, env, old(h.client.data));
            && w.codes == old(w.codes) + e.codes
            && w.body == old(w.body) + e.body
            && h.client.data == e.kv
            && r.body.consumed == (old(r.body.consumed) || e.bodyRead)
  {
    var agentName := r.agentName;
    if agentName == "" {
      w.Error(StatusBadRequest);
      return;
    }

    if r.tls.None? || |r.tls.value.peerCertificates| == 0 {
      w.Error(StatusBadRequest);
      return;
    }

    var foundName := FindName(r.tls.value.peerCertificates[0], agentName);

    if !foundName {
      w.Error(StatusForbidden);
      return;
    }

    if r.requestMethod == MethodGet {
      h.GETMonitorsHandler(w, r, env);
    } else if r.requestMethod == MethodPost {
      h.POSTStatusHandler(w, r, env);
    } else {
      w.Error(StatusBadRequest);
    }
  }

  /** A missing X-Agent-Name header is a bad request whatever the method, certificate or body. */
  lemma MissingHeaderRejectedFirst(r: Request, env: Env, kv: map<string, string>)
    requires r.agentName == ""
    ensures Serve(r, env, kv) == Effect([StatusBadRequest], "", false, kv)
  {
  }

  /** A named request without a peer certificate is a bad request, before any name is compared. */
  lemma MissingCertificateRejected(r: Request, env: Env, kv: map<string, string>)
    requires r.agentName != ""
    requires r.tls.None? || r.tls.value.peerCertificates == []
    ensures Serve(r, env, kv) == Effect([StatusBadRequest], "", false, kv)
  {
  }

  /** A name the leaf certificate does not assert is forbidden, not a bad request. */
  lemma MismatchForbidden(r: Request, env: Env, kv: map<string, string>)
    requires r.agentName != "" && r.tls.Some? && |r.tls.value.peerCertificates| > 0
    requires r.agentName != r.tls.value.peerCertificates[0].commonName
    requires r.agentName !in r.tls.value.peerCertificates[0].dnsNames
    ensures Serve(r, env, kv) == Effect([StatusForbidden], "", false, kv)
  {
  }

  /**
   * Only the leaf certificate is consulted, and only by exact equality:
   * certificates after it make no difference.
   */
  lemma OnlyLeafCertificateCounts(agentName: string, leaf: Certificate, rest: seq<Certificate>)
    ensures Authorized(agentName, Some(ConnectionState([leaf] + rest))) <==>
              agentName != "" && (agentName == leaf.commonName || agentName in leaf.dnsNames)
  {
  }

  /** An authorised request with a method other than GET or POST is a bad request; no handler runs. */
  lemma OtherMethodRejected(r: Request, env: Env, kv: map<string, string>)
    requires Authorized(r.agentName, r.tls)
    requires r.requestMethod != MethodGet && r.requestMethod != MethodPost
    ensures Serve(r, env, kv) == Effect([StatusBadRequest], "", false, kv)
  {
  }

  /** A request that reads the body, answers 200 or changes the store was authorised. */
  lemma HandlersRunOnlyWhenAuthorized(r: Request, env: Env, kv: map<string, string>)
    ensures var e := Serve(r, env, kv);
            e.bodyRead || e.kv != kv || EffectiveStatus(e.codes) == StatusOK ==> Authorized(r.agentName, r.tls)
  {
  }

  /** A request rejected with 400 or 403 leaves the store as it was. */
  lemma RejectionLeavesStoreUnchanged(r: Request, env: Env, kv: map<string, string>)
    ensures var e := Serve(r, env, kv);
            EffectiveStatus(e.codes) in {StatusBadRequest, StatusForbidden} ==> e.kv == kv
  {
  }

  /**
   * The store changes only when an authorised POST got as far as Set and
   * the store applied the write (a write applied without acknowledgement
   * still answers 500).
   */
  lemma StoreChangesOnlyThroughSet(r: Request, env: Env, kv: map<string, string>)
    ensures var e := Serve(r, env, kv);
            e.kv != kv ==>
              && Authorized(r.agentName, r.tls) && r.requestMethod == MethodPost
              && Serialized(r.body.Payload(), env).Some?
              && !env.setFault.WriteRefused?
              && e.kv == kv[r.agentName := Serialized(r.body.Payload(), env).value]
  {
  }

  /** No key other than the requesting agent's name ever changes. */
  lemma OnlyAgentKeyChanges(r: Request, env: Env, kv: map<string, string>, k: string)
    requires k != r.agentName
    ensures var e := Serve(r, env, kv);
            (k in e.kv <==> k in kv) && (k in kv ==> e.kv[k] == kv[k])
  {
  }

  /**
   * Because the header check comes first, the empty key is never written,
   * although POSTStatusHandler itself does not reject an empty name.
   */
  lemma EmptyKeyNeverWritten(r: Request, env: Env, kv: map<string, string>)
    ensures var e := Serve(r, env, kv);
            ("" in e.kv <==> "" in kv) && ("" in kv ==> e.kv[""] == kv[""])
  {
  }

  /** POSTStatusHandler on its own stores under the empty name when asked to. */
  lemma PostHandlerAcceptsEmptyName(body: BodyReader, env: Env, kv: map<string, string>)
    requires 0 < body.contentLength <= MaxContentLength
    requires Serialized(body.Payload(), env).Some? && env.setFault == NoSetFault
    ensures var e := PostStatus("", body, env, kv);
            e.codes == [StatusOK] && "" in e.kv && e.kv[""] == Serialized(body.Payload(), env).value
  {
  }

  /** GET reads the monitors key only: the store is unchanged and the body is not read. */
  lemma GetNeverMutates(r: Request, env: Env, kv: map<string, string>)
    requires r.requestMethod == MethodGet
    ensures var e := Serve(r, env, kv);
            e.kv == kv && !e.bodyRead
  {
  }

  /** An authorised GET answers 200 with the stored monitors document verbatim, and 500 otherwise. */
  lemma AuthorizedGetReturnsMonitors(r: Request, env: Env, kv: map<string, string>)
    requires Authorized(r.agentName, r.tls) && r.requestMethod == MethodGet
    ensures var e := Serve(r, env, kv);
            if env.getFault == NoGetFault && MonitorsKey in kv
            then e.codes == [StatusOK] && e.body == kv[MonitorsKey]
            else e.codes == [StatusInternalServerError] && e.body == ""
  {
  }

  /** A content length outside 1..1,000,000 is a bad request; the body is not read and the store not touched. */
  lemma BadContentLengthRejectedBeforeRead(r: Request, env: Env, kv: map<string, string>)
    requires Authorized(r.agentName, r.tls) && r.requestMethod == MethodPost
    requires r.ContentLength() <= 0 || r.ContentLength() > MaxContentLength
    ensures Serve(r, env, kv) == Effect([StatusBadRequest], "", false, kv)
  {
  }

  /** A body that cannot be read, or does not decode as an array, is a bad request; the store is not touched. */
  lemma UnusableBodyRejected(r: Request, env: Env, kv: map<string, string>)
    requires Authorized(r.agentName, r.tls) && r.requestMethod == MethodPost
    requires 0 < r.ContentLength() <= MaxContentLength
    requires Envelope(r.body.Payload(), env).None?
    ensures Serve(r, env, kv) == Effect([StatusBadRequest], "", true, kv)
  {
  }

  /** A serialisation failure answers 500 without writing. */
  lemma SerializationFailureNotStored(r: Request, env: Env, kv: map<string, string>)
    requires Authorized(r.agentName, r.tls) && r.requestMethod == MethodPost
    requires 0 < r.ContentLength() <= MaxContentLength
    requires Envelope(r.body.Payload(), env).Some? && Serialized(r.body.Payload(), env).None?
    ensures Serve(r, env, kv) == Effect([StatusInternalServerError], "", true, kv)
  {
  }

  /**
   * A failing Set writes 500 and then, falling through, 200; the client
   * sees the 500.
   */
  lemma SetFailureFallsThrough(r: Request, env: Env, kv: map<string, string>)
    requires Authorized(r.agentName, r.tls) && r.requestMethod == MethodPost
    requires 0 < r.ContentLength() <= MaxContentLength
    requires Serialized(r.body.Payload(), env).Some? && env.setFault != NoSetFault
    ensures var e := Serve(r, env, kv);
            e.codes == [StatusInternalServerError, StatusOK] && EffectiveStatus(e.codes) == StatusInternalServerError
  {
  }

  /**
   * An accepted update replaces the agent's record by the serialised
   * envelope of the decoded body stamped with the acceptance time.
   */
  lemma AcceptedUpdateStored(r: Request, env: Env, kv: map<string, string>)
    requires r.requestMethod == MethodPost
    requires EffectiveStatus(Serve(r, env, kv).codes) == StatusOK
    ensures Authorized(r.agentName, r.tls)
    ensures r.body.Payload().Some? && env.parse(r.body.Payload().value).Some?
    ensures var data := env.parse(r.body.Payload().value).value;
            && env.marshal(StatusUpdate(data, env.now)).Some?
            && Serve(r, env, kv).kv == kv[r.agentName := env.marshal(StatusUpdate(data, env.now)).value]
  {
  }

  /**
   * Two accepted updates from the same agent leave the second envelope
   * under its name: the first is overwritten, not merged.
   */
  lemma LastWriteWins(r1: Request, env1: Env, r2: Request, env2: Env, kv: map<string, string>)
    requires r1.agentName == r2.agentName
    requires r1.requestMethod == MethodPost && r2.requestMethod == MethodPost
    requires EffectiveStatus(Serve(r1, env1, kv).codes) == StatusOK
    requires EffectiveStatus(Serve(r2, env2, Serve(r1, env1, kv).kv).codes) == StatusOK
    ensures Serve(r2, env2, Serve(r1, env1, kv).kv).kv == kv[r2.agentName := Serialized(r2.body.Payload(), env2).value]
  {
  }

  /**
   * Round trip: when decoding undoes the serialiser, the record an
   * accepted update leaves under the agent's name reads back as the
   * decoded body with the acceptance time.
   */
  lemma AcceptedUpdateReadsBack(r: Request, env: Env, kv: map<string, string>,
                                decode: string -> Option<StatusUpdate>)
    requires forall u :: env.marshal(u).Some? ==> decode(env.marshal(u).value) == Some(u)
    requires r.requestMethod == MethodPost
    requires EffectiveStatus(Serve(r, env, kv).codes) == StatusOK
    ensures var reply := GetReply(Serve(r, env, kv).kv, r.agentName, NoGetFault);
            && reply.Node?
            && r.body.Payload().Some? && env.parse(r.body.Payload().value).Some?
            && decode(reply.value) == Some(StatusUpdate(env.parse(r.body.Payload().value).value, env.now))
  {
  }

  /** A claim for "node-7" over a certificate for "node-9" is forbidden. */
  lemma ClaimForOtherAgentForbidden(body: BodyReader, env: Env, kv: map<string, string>)
    ensures var r := Request(MethodPost, "node-7", Some(ConnectionState([Certificate("node-9", ["node-9.example"])])), body);
            Serve(r, env, kv) == Effect([StatusForbidden], "", false, kv)
  {
  }

  /** ASCII lower-casing of one character. */
  function AsciiLower(c: char): char
  {
    if 'A' <= c <= 'Z' then (c as int + 32) as char else c
  }

  /** Two names that are equal once every ASCII letter is lower-cased. */
  predicate EqualIgnoringCase(a: string, b: string)
  {
    |a| == |b| && forall i :: 0 <= i < |a| ==> AsciiLower(a[i]) == AsciiLower(b[i])
  }

  /**
   * Names are compared exactly: a claim that differs from the leaf's
   * common name only in letter case, and is not one of its DNS names, is
   * forbidden.
   */
  lemma CaseDifferenceForbidden(r: Request, env: Env, kv: map<string, string>)
    requires r.agentName != "" && r.tls.Some? && |r.tls.value.peerCertificates| > 0
    requires EqualIgnoringCase(r.agentName, r.tls.value.peerCertificates[0].commonName)
    requires r.agentName != r.tls.value.peerCertificates[0].commonName
    requires r.agentName !in r.tls.value.peerCertificates[0].dnsNames
    ensures Serve(r, env, kv) == Effect([StatusForbidden], "", false, kv)
  {
  }

  /** An authorised read when the store holds no monitors document is a server error. */
  lemma MissingMonitorsIsServerError(r: Request, env: Env, kv: map<string, string>)
    requires Authorized(r.agentName, r.tls) && r.requestMethod == MethodGet
    requires MonitorsKey !in kv
    ensures Serve(r, env, kv).codes == [StatusInternalServerError]
  {
  }

  /**
   * An accepted update carried between 1 and 1,000,000 bytes: the body
   * read is exactly the declared length, and that length was checked.
   */
  lemma AcceptedPayloadBounded(r: Request, env: Env, kv: map<string, string>)
    requires r.requestMethod == MethodPost
    requires EffectiveStatus(Serve(r, env, kv).codes) == StatusOK
    ensures r.body.Payload().Some?
    ensures |r.body.Payload().value| == r.ContentLength()
    ensures 0 < |r.body.Payload().value| <= MaxContentLength
  {
  }

  /**
   * Over HTTP/1.1, bytes sent beyond the declared length are not part of
   * the body: the body read is the first declared-length bytes.
   */
  lemma BodyCutAtDeclaredLength(r: Request)
    requires r.body.protocol == Http1 && r.ContentLength() > 0
    requires r.body.sent.Some? && |r.body.sent.value| >= r.ContentLength()
    ensures r.body.Payload() == Some(r.body.sent.value[..r.ContentLength()])
  {
  }

  /**
   * Over HTTP/2 a body that is longer or shorter than declared cannot be
   * read: an authorised POST with a valid declared length whose
   * transmission differs from it is a bad request and nothing is stored.
   */
  lemma OverlongBodyRejectedOverHttp2(r: Request, env: Env, kv: map<string, string>)
    requires Authorized(r.agentName, r.tls) && r.requestMethod == MethodPost
    requires r.body.protocol == Http2 && 0 < r.ContentLength() <= MaxContentLength
    requires r.body.sent.Some? && |r.body.sent.value| != r.ContentLength()
    ensures Serve(r, env, kv) == Effect([StatusBadRequest], "", true, kv)
  {
  }

  /**
   * The monitors document is not protected from agents: an accepted update
   * from an agent whose certificate asserts the name "monitors" replaces
   * it, and later reads serve that agent's envelope.
   */
  lemma AgentNamedMonitorsOverwritesDocument(r: Request, env: Env, kv: map<string, string>)
    requires r.agentName == MonitorsKey && r.requestMethod == MethodPost
    requires EffectiveStatus(Serve(r, env, kv).codes) == StatusOK
    ensures Serialized(r.body.Payload(), env).Some?
    ensures var after := GetMonitors(Serve(r, env, kv).kv, NoGetFault);
            after.codes == [StatusOK] && after.body == Serialized(r.body.Payload(), env).value
  {
  }
}

=== FILE: wrappers.dfy ===
/** The optional value used where the Go code returns a nil error or a nil pointer. */
module Wrappers {

  datatype Option<+T> = None | Some(value: T)
}
